=== FILE: README.md ===
# Add-item conversation of golistbot, in Dafny

golistbot is a Telegram bot that keeps a per-chat list of places (items). A user builds an item over several turns of a conversation. Each turn the bot reads the stored conversation state and handles one update: a text message, a photo, or a press of an inline-keyboard button. This project models that conversation engine:

- `AddItem.Step` is one call of `addItemHandler`. It takes the stored state, the staged ("temp") item, the chat target, the reply target and the stored items. It returns all of them updated.
- `Workflow.HandleUserInput` is the older top-level dispatcher. It models the `/start` override, the Idle entry command `/addPlace`, and the older add-place field machine.
- `States` holds the state vocabulary, its `iota` numbering and the predicates `IsAddingNewPlace` and `IsQuery`.
- `TagButtons` builds the add-tag and remove-tag button lists.
- `Telegram` holds the update getters, plus `Classify`, which turns an update into one of the three input channels.
- `PlaceText` builds the item-details text.

Persistence is abstract:

- The stored items are a map from chat to a map from item name to item. Committing is an upsert by name (`AddItem.Upsert`).
- The Firebase helpers the handlers call have no bodies in this model. Each one either succeeds or fails. Which ones fail in a turn is an input, the `AddItem.Faults` record.
- A helper also fails when it gets an input channel it does not accept. For example, it fails on a photo where text is expected. The bot's error replies ("Address should be a text", "Did you send an image?") say that this is what those errors mean.

Tags and images are sets: the keys of a `map[string]bool`, with every stored value taken to be `true` (see `TagButtons.AddTagButtons` under "## Left out"). A Go map may be nil, and a nil map is different from an empty one when the details text is rendered. So the item keeps each of these sets as an `Option`, with `None` standing for nil.

The model follows the code, with one exception. A button press is read by its payload, the bot's evident intent, although telegram_utils.go's `GetCallbackQueryMessage` returns the prompt's text; see `AddItem.Step` under "## Left out" and the second finding. Points where the code departs from the bot's evident intent and the model keeps the code:

- `/cancel` in ReadyForNextAction only sets Idle. The staged item is not discarded.
- A confirmed submit stores the item, sets Idle and clears the chat target. Nothing in the code clears the staged item.
- In SetTags the slash check runs before the end token is compared. When that check rejects, typing `/done` changes nothing.
- `IsAddingNewPlace` does not include RemoveTags or ConfirmSubmit. `addItemHandler` handles them anyway.
- The older dispatcher advances to ReadyForNextAction even when a field write fails. In SetTags it writes the text into the URL field.

## Model

| member | source | states |
|---|---|---|
| States.OrdinalRoundTrip | services/constants/constants.go:4-31 | each of the fifteen declared states is stored as its position in the `iota` block; RemoveTags and ConfirmSubmit, which the block does not declare, are numbered 15 and 16 after it; reading a number back gives the same state, and the numbering is one-to-one |
| States.StoredState | services/constants/constants.go:6-7 | a key with no stored state reads as Idle, the zero value; a stored integer reads as a state exactly when it is one of the numbers 0 to 16; this describes the storage on its own, since both dispatchers here take the state already read |
| States.CategoryOf | services/constants/constants.go:53-83 | the dispatch category is Adding exactly when `IsAddingNewPlace` holds, Query exactly when `IsQuery` holds, and Idle exactly for Idle |
| States.CategoryMembers | services/constants/constants.go:53-83 | `IsAddingNewPlace` holds for exactly the seven add states and `IsQuery` for exactly the six query states; no state satisfies both; Idle and Finished satisfy neither |
| Items.GetImageIDs | services/constants/constants.go:42-51 | a nil image map gives no ids; otherwise every image key appears exactly once, so the length equals the number of keys |
| TagButtons.AddTagButtons | services/addPlace.go:37-78 | the buttons are the chat's tags not already on the staged item, each once, followed by `/done` as the last button, the only `/done` unless the chat itself has a tag of that name; a chat with no tags gets `/done` alone; a failed read sends no keyboard |
| TagButtons.RemoveTagButtons | services/addPlace.go:80-101 | the buttons are the staged item's tags, each once, followed by `/done`, so there are one more buttons than tags; a failed read leaves `/done` alone |
| Decimal.IntToStringRoundTrip | services/utils/telegram_utils.go:166-167 | the base-10 text of any integer, negative group-chat ids included, parses back to that integer |
| Telegram.GetChatUserID | services/utils/telegram_utils.go:144-156 | an error and (0, 0) exactly when the update has no message; otherwise the message's chat id and sender id |
| Telegram.GetChatUserIDStringAsWritten | services/utils/telegram_utils.go:158-164 | as written, a present message yields an error and empty strings, and an absent one is dereferenced; the identifiers are never produced |
| Telegram.ChatUserIDStringAsWrittenCounterexample | services/utils/telegram_utils.go:158-164 | a message from chat -100 has a chat id that `GetChatUserID` returns but the string version refuses |
| Telegram.GetChatUserIDString | services/utils/telegram_utils.go:158-170 | with the intended guard, an error exactly when there is no message; otherwise texts that parse back to `GetChatUserID`'s chat and user ids |
| Telegram.ChatUserIDStringSeparatesChats | services/utils/telegram_utils.go:166-167 | messages from different chats give different chat-id strings |
| Telegram.GetMessage | services/utils/telegram_utils.go:172-184 | ("", 0) and an error exactly when there is no message; otherwise the message's text and id |
| Telegram.GetCallbackQueryMessage | services/utils/telegram_utils.go:186-192 | an error exactly when there is no button press; otherwise the text of the message that carried the keyboard |
| Telegram.CallbackQueryMessageIgnoresPayload | services/utils/telegram_utils.go:186-192 | as written, presses of two different buttons on the same keyboard give the same result |
| Telegram.CallbackQueryMessageCounterexample | services/utils/telegram_utils.go:186-192 | pressing the button "cafe" under the prompt "Existing tags:" reads as "Existing tags:" |
| Telegram.GetCallbackData | services/utils/telegram_utils.go:186-192 | an error exactly when there is no button press; otherwise the pressed button's payload |
| Telegram.ClassifyAsWritten | services/utils/telegram_utils.go:186-192 | with the getter as written, a message is read as `Classify` reads it, and a lone button press reads as the text of the message that carried the keyboard |
| Telegram.GetPhotoIDs | services/utils/telegram_utils.go:194-207 | distinct errors for a missing message and a missing photo; otherwise one file id per photo size, in order |
| Telegram.Classify | services/addPlace.go:307-340 | a message wins over a button press, as in the `update.Message != nil` tests; a photo is read through its sizes; a lone button press reads as its payload; an update with neither is no event |
| PlaceText.LinesFrom | services/utils/telegram_utils.go:79-107 | the lines of a given rank and above are the shown ones, each once and in rank order |
| PlaceText.DetailLinesShape | services/utils/telegram_utils.go:78-107 | the details text has a line of each kind exactly when that field is shown, no other line, and the fixed order Name, Address, URL, Images, Tags, Notes |
| PlaceText.DetailLinesFields | services/utils/telegram_utils.go:82-106 | Name, Address, URL and Notes lines appear exactly when the field is non-empty; the Images line (with the number of images) and the Tags line appear exactly when their maps are not nil |
| PlaceText.NameLineFirst | services/utils/telegram_utils.go:82-84 | a named item's text begins with its name line |
| PlaceText.NewItemText | services/utils/telegram_utils.go:78-107 | a freshly named item renders as its name line alone |
| PlaceText.SendPlaceDetails | services/utils/telegram_utils.go:78-110 | the text is the rendering of the detail lines for the order in which the tags were listed, which lists every tag once; the image ids list every image once, and are empty when the image map is nil |
| AddItem.Upsert | services/addPlace.go:419-425 | committing stores the item under its name in the target chat, replacing an item of the same name; every other item and chat is unchanged |
| AddItem.Step | services/addPlace.go:119-451 | states without a case are left alone; the workflow is only left for Idle, and only by `/cancel` or a confirmed submit; a failing state write keeps the state; stored items change only by committing the staged item under the chat target; the staged item changes only in field-entry states, its name only in SetName; the chat target is only cleared, after a commit; an event on a channel the state does not accept changes nothing |
| AddItemProperties.SetNameTransitions | services/addPlace.go:121-138 | a slash-check rejection or a failed initialisation changes nothing; otherwise a fresh item named by the text is staged, and the state becomes ReadyForNextAction if that write succeeds |
| AddItemProperties.ReadyMenuTransitions | services/addPlace.go:145-173 | `/setAddress`, `/setNotes`, `/setURL` and `/addImage` lead to their entry states and change nothing else |
| AddItemProperties.ReadyMenuLoopTransitions | services/addPlace.go:174-238 | `/addTag` leads to SetTags, `/removeTag` to RemoveTags and `/submit` to ConfirmSubmit, each recording the token's message as the reply target; `/cancel` leads to Idle and keeps the staged item |
| AddItemProperties.ReadyIgnores | services/addPlace.go:139-242 | `/preview`, any unrecognised input, a photo, a button press, and a menu token whose state write fails all leave the whole world unchanged |
| AddItemProperties.SetFieldTransitions | services/addPlace.go:243-284 | in SetAddress, SetNotes and SetURL a text overwrites that field and returns to ReadyForNextAction; a failed field write changes nothing |
| AddItemProperties.SetImageTransition | services/addPlace.go:285-299 | a failed image write changes nothing, the state included; otherwise the photo adds its reference to the image set, nothing else on the item changes, and the state becomes ReadyForNextAction if that write succeeds; a repeated image adds nothing |
| AddItemProperties.TagLoopEnds | services/addPlace.go:314-348 | typed `/done`, `done` or `Done`, or the `/done` button, return to ReadyForNextAction |
| AddItemProperties.TagLoopAdds | services/addPlace.go:324-357 | any other non-empty tag, typed or pressed, joins the staged tags and the state stays SetTags |
| AddItemProperties.DuplicateTagOnce | services/addPlace.go:324-331 | adding the same tag twice leaves it once; on an item without tags the tag set is exactly that one tag |
| AddItemProperties.RemoveTagTransitions | services/addPlace.go:361-394 | text is refused; `/done` returns to ReadyForNextAction; any other button removes that tag (an absent tag is a no-op) and the state stays RemoveTags |
| AddItemProperties.ConfirmTransitions | services/addPlace.go:395-446 | text is refused; `no` returns to ReadyForNextAction; other payloads change nothing; Idle is reached only after `yes` and after the item was stored; with no failures `yes` stores, sets Idle and clears the chat target |
| AddItemProperties.RunAppend | services/addPlace.go:119-451 | handling two runs of turns one after the other is handling their concatenation |
| AddItemProperties.RunStaysInWorkflow | services/addPlace.go:119-451 | over any turns, whatever fails, a conversation in the add workflow stays in it or reaches Idle, and an Idle one is left alone |
| AddItemProperties.RunKeepsItems | services/addPlace.go:419-425 | over any turns, every stored (chat, name) stays stored |
| AddItemProperties.TagLoopRun | services/addPlace.go:300-360 | typing any number of tags keeps the conversation in SetTags and adds exactly those tags; nothing else changes |
| AddItemProperties.RemoveLoopRun | services/addPlace.go:361-394 | pressing any number of tag buttons keeps the conversation in RemoveTags and removes exactly those tags; nothing else changes |
| AddItemProperties.EditTurnsEffect | services/addPlace.go:139-394 | one menu edit carried out by the conversation has the effect of the reference edit and ends in ReadyForNextAction; a tag is typed free of '/' and the loop is ended by typing `done` |
| AddItemProperties.ScriptEffect | services/addPlace.go:139-394 | any sequence of edits leaves the staged item equal to the reference result: each field has its last written value, and images and tags are the sets built by the adds and removes |
| AddItemProperties.SessionCommits | services/addPlace.go:395-446 | edits followed by `/submit` and `yes` store the reference item under the chat target, replacing any item of that name, then reach Idle and clear the chat target |
| AddItemProperties.EditsKeepName | services/addPlace.go:243-394 | no edit after SetName renames the item |
| AddItemProperties.PressedButtonsReachHandler | services/addPlace.go:333-446 | read by its payload, a lone press reaches the handler as intended: `yes` under the confirmation stores the staged item, sets Idle and clears the chat target; `/done` ends the remove loop; a tag name joins the staged tags |
| AddItemProperties.AsWrittenConfirmNeverCommits | services/addPlace.go:395-446 | with the getter as written, any press under a confirmation prompt other than the words `yes` or `no` changes nothing, so pressing `yes` never stores the item |
| AddItemProperties.AsWrittenRemoveLoopNeverEnds | services/addPlace.go:361-394 | with the getter as written, a press under a prompt other than `/done` keeps RemoveTags and removes the prompt's text, not the pressed tag |
| AddItemProperties.AsWrittenTagIsPrompt | services/addPlace.go:333-357 | with the getter as written, pressing any tag under "Existing tags:" stores "Existing tags:" as a tag |
| Workflow.HandleUserInput | services/workflow.go:10-207 | only an update without a message can panic; the chat target and reply target are never written; the `/start` write and the dispatch write fail independently: a `/start` whose write succeeds ends the turn in Idle, and a failing dispatch write leaves the state where the `/start` write left it; stored items change only by `/submit` in ReadyForNextAction, under the message's chat |
| Workflow.StartResets | services/workflow.go:12-42 | a successful `/start` write sets Idle before the stored state is read, and the Idle dispatch that follows changes nothing else, whatever fails during it |
| Workflow.StartFallsThroughOnWriteFailure | services/workflow.go:12-29 | when the `/start` write fails, the text goes to the stored state like any input; in SetAddress it becomes the address, and the state becomes ReadyForNextAction exactly when the dispatch's own write succeeds |
| Workflow.IdleEntry | services/workflow.go:31-42 | in Idle, `/addPlace` moves to SetName; any other text leaves Idle; a button press panics on the nil message |
| Workflow.LegacyReadyMenu | services/workflow.go:63-91 | `/addAddress`, `/addURL`, `/addImage` and `/addTag` lead to SetAddress, SetURL, SetImages and SetTags |
| Workflow.LegacyReadyLeaves | services/workflow.go:100-118 | `/cancel` leads to Idle; `/submit` stores the staged item under the message's chat and then sets Idle |
| Workflow.LegacySubmitIgnoresCommitFailure | services/workflow.go:100-111 | `/submit` reaches Idle even when storing the item failed |
| Workflow.LegacyReadyIgnores | services/workflow.go:58-119 | `/preview`, the newer menu's tokens and any other input change nothing, since there is no default branch |
| Workflow.LegacyAdvancesOnFailure | services/workflow.go:47-152 | SetName, SetAddress, SetURL and SetImages reach ReadyForNextAction even when the field write fails |
| Workflow.LegacyTagGoesToURL | services/workflow.go:153-163 | in SetTags the text is written to the URL field and the state returns to ReadyForNextAction; the tags are untouched |
| Workflow.LegacyNotesUnhandled | services/workflow.go:44-166 | with constants.go's state names and `IsAddingNewPlace`, SetNotes counts as an add state but has no case, so nothing changes and a button press does not panic |
| Workflow.OtherStatesUntouched | services/workflow.go:169-206 | outside Idle and the add states, a message changes nothing and a button press panics on the nil message |

## Left out

- main.go (gin HTTP wiring and webhook decoding) is not part of this model. As written it does not compile (`services.P` at main.go:53).
- Transport is not modelled: `InitTelegram`, `SendMessage`, `SendPhoto`, `SendUnknownCommand`, the keyboard senders and removers, and the reply-keyboard layout of `sendTemplateReplies`. Every reply they send is left out, and so is delivery failure.
- The Firebase helpers (`CheckForSlash`, `InitItem`, `SetTempItem*`, `AddTempItem*`, `DeleteTempItemTag`, `SetUserState`, `GetChatTarget`, `SetChatTarget`, `AddItemFromTemp`, `GetTags`, `GetTempItem*`) are defined in `services/utils`, outside the modelled files. Each is modelled as an operation that either succeeds or fails, and the failure is an input to the turn.
- `SetMessageTarget`: its error is ignored in the code, so the model always applies the write.
- Query, Delete and Edit handlers are not part of this model. Neither are the private-chat redirect that sets the chat target and the `/additem` entry that creates it. The model only reads the chat target and clears it.
- State is keyed by conversation (chat and user). The model keeps one conversation's state, staged item, chat target and reply target. The chat target is per user and shared between that user's group and private conversations: it is set where `/additem` was started and read and cleared in the private conversation (addPlace.go:410, :432-433). The model can keep it inside one conversation's `World` because the handlers modelled here only read and clear it. Turns for different users touch disjoint data except the stored items.
- Concurrency is not modelled, including duplicate delivery of an update.
- Chat and user ids are Go `int64`/`int`. Here they are unbounded integers, because nothing in the core does arithmetic on them.
- Go map iteration order is not modelled. Listing a map's keys (`Items.Enumerate`) picks an arbitrary order, and contracts speak of the set listed.
- TagButtons.AddTagButtons: item images and tags are `map[string]bool`. Every reader in the modelled files uses only the keys, except addPlace.go:70, which tests the value (`!curTempTags[tag]`). The model reads both maps as sets of keys, which assumes every stored value is `true`. The writers (`AddTempItemTag`, `DeleteTempItemTag`, `AddTempItemImage`) are in `services/utils`, outside the modelled files. Under that assumption the value test agrees with key membership. A staged tag stored as `false` would be offered again in Go but is withheld here.
- AddItem.Step: `AddTempItemImage` is defined in `services/utils`, outside the modelled files, so which size of a photo it stores is not modelled from its code. The model stores the last size, which is the largest one Telegram sends.
- AddItem.Step: the model assumes `AddTempItemTag` fails for an empty tag. It is defined in `services/utils`, outside the modelled files. The text branch reaches it through a photo, or through any message without text, a sticker for example.
- AddItem.Step: a button press reaches the handler as its payload (`Telegram.Classify`), not as the prompt text that telegram_utils.go's `GetCallbackQueryMessage` returns. addPlace.go takes `*tgbotapi.Update` and calls a three-argument `SendMessage`, while telegram_utils.go's getters take `tgbotapi.Update` and its `SendMessage` takes two. So the getter the handler calls is a version outside the modelled files. Under telegram_utils.go's reading, `yes` never commits and the remove loop cannot be left by a button; the `AsWritten` lemmas state this.
- States.OrdinalRoundTrip: constants.go declares only the fifteen states 0 to 14. The `AddNew*` and `ConfirmAddItemSubmit` names used by addPlace.go come from a constants file outside the modelled files. The numbers 15 and 16 for RemoveTags and ConfirmSubmit are assumed, not read from the source.
- States.StoredState: a Go `State` is any `int`, so a stored 17 is a state that matches no case and is dispatched like Finished. The model reads integers outside 0 to 16 as no state. The upper bound rests on the assumed numbers 15 and 16.
- PlaceText.NewItemText: `InitItem` is defined in `services/utils`, outside the modelled files. The model assumes it stages an item with the given name, empty texts and nil image and tag maps (`Items.NewItem`).
- AddItemProperties.EditTurnsEffect: `CheckForSlash` is defined in `services/utils`, outside the modelled files. The edit scripts type only tags without '/' and end the tag loop with `done`, never a typed `/done`, so they do not depend on what that check accepts.
- Telegram.GetCallbackQueryMessage: a button press whose `CallbackQuery.Message` is nil (inline-mode messages) is not modelled. There the Go code dereferences nil.
- Workflow.HandleUserInput: workflow.go imports neither constants.go nor the Firebase helpers. Its `Idle`, `SetName`, ..., `IsAddingNewPlace`, `getUserState` and `setUserState` are declarations in other files of the `services` package, outside the modelled files. The model assumes they are constants.go's states and predicate.
- Workflow.LegacyNotesUnhandled: rests on the assumption above. The older menu has no notes token, so that package's `State` may lack SetNotes altogether; then this lemma describes no reachable case.
- Workflow.StartFallsThroughOnWriteFailure: the `/start` write has its own failure input, separate from the `Faults` of the dispatch. Every other `setUserState` call within one turn shares the one `stateWriteFails` flag, which suffices because the dispatch makes at most one such call.
- Workflow.HandleUserInput: the older staging helpers are defined in other files of the `services` package, outside the modelled files. As with the newer ones, the model treats them as failing on the wrong channel or on a store fault. It assumes `addPlaceFromTemp` stores under the chat the message came from.

## Findings

| source | as written | input that shows it | evidently intended | confidence | as-written member | corrected member |
|---|---|---|---|---|---|---|
| services/utils/telegram_utils.go:158-164 | the guard is `update.Message != nil`: a present message returns an error with empty ids, and an absent one is dereferenced | an update holding a message from chat -100, user 7 | guard `update.Message == nil`, then the two ids in base 10, as `GetChatUserID` does | high, not executed | Telegram.GetChatUserIDStringAsWritten | Telegram.GetChatUserIDString |
| services/utils/telegram_utils.go:186-191 | returns `CallbackQuery.Message.Text`, the text of the bot's message that carries the keyboard | pressing the button "cafe" under the prompt "Existing tags:" returns "Existing tags:" | the pressed button's payload (`CallbackQuery.Data`), which addPlace.go compares with `/done`, `yes`, `no` and tag names | medium, not executed | Telegram.GetCallbackQueryMessage | Telegram.GetCallbackData |

For the second finding, the rest of the model reads a button press by its payload: `Telegram.Classify` uses it. At handler level the as-written reading is `Telegram.ClassifyAsWritten`. The lemmas `AddItemProperties.AsWrittenConfirmNeverCommits`, `AsWrittenRemoveLoopNeverEnds` and `AsWrittenTagIsPrompt` state its effect. `AddItemProperties.PressedButtonsReachHandler` states the intended one.

=== FILE: add_item.dfy ===
/**
  One turn of `addItemHandler` (services/addPlace.go): given the stored
  conversation state, one input event and the staged item, the next
  state, staged item, chat target, message target and stored items.

  The Firebase helpers the handler calls are not part of this model. Each
  either succeeds or fails; which of them fail in a turn is an input
  (`Faults`). A helper that expects a given input channel also fails on
  any other channel, as its error reply ("Address should be a text",
  "Did you send an image?") says.
*/
module AddItem {
  import opened Wrappers
  import opened States
  import opened Items
  import opened Telegram

  type ChatId = int

  /** Stored items: per chat, keyed by item name. */
  type Collections = map<ChatId, map<string, Item>>

  /** Everything one conversation turn reads and writes. A chat target of
      0 means none. */
  datatype World = World(
    state: State,
    temp: Item,
    chatTarget: ChatId,
    messageTarget: int,
    items: Collections)

  /** Which external calls fail during a turn. */
  datatype Faults = Faults(
    slashRejected: bool,        // CheckForSlash reports an error
    tempWriteFails: bool,       // InitItem, SetTempItem*, AddTempItem*, DeleteTempItemTag
    stateWriteFails: bool,      // SetUserState
    chatTargetReadFails: bool,  // GetChatTarget
    commitFails: bool,          // AddItemFromTemp
    chatTargetWriteFails: bool, // SetChatTarget
    stateReadFails: bool)       // reading the stored state before dispatch

  const NoFaults := Faults(false, false, false, false, false, false, false)

  /** The states `addItemHandler` has a case for. */
  predicate InAddWorkflow(s: State)
  {
    IsAddingNewPlace(s) || s == RemoveTags || s == ConfirmSubmit
  }

  /** The field-entry states that expect a text message. */
  predicate ExpectsText(s: State)
  {
    s == SetName || s == SetAddress || s == SetNotes || s == SetURL
  }

  /** The text the tag loop accepts as its end. */
  predicate IsDoneText(t: string)
  {
    t == "/done" || t == "done" || t == "Done"
  }

  /** `AddItemFromTemp` into a chat's collection: the item is stored under
      its name, replacing any item of that name; nothing else changes. */
  function Upsert(items: Collections, chat: ChatId, p: Item): (r: Collections)
    ensures r.Keys == items.Keys + {chat}
    ensures p.name in r[chat] && r[chat][p.name] == p
    ensures forall n :: n != p.name ==>
      (n in r[chat] <==> chat in items && n in items[chat])
      && (n in r[chat] ==> r[chat][n] == items[chat][n])
    ensures forall c :: c in items && c != chat ==> r[c] == items[c]
  {
    var existing := if chat in items then items[chat] else map[];
    items[chat := existing[p.name := p]]
  }

  /** `SetUserState`: the state moves only if the write succeeds. */
  function SetState(w: World, s: State, f: Faults): (r: World)
    ensures r.state == (if f.stateWriteFails then w.state else s)
    ensures r.(state := w.state) == w
  {
    if f.stateWriteFails then w else w.(state := s)
  }

  /** A map-as-set with one more member; a nil map is created. */
  function With(m: Option<set<string>>, x: string): (r: Option<set<string>>)
    ensures r.Some? && r.value == Members(m) + {x}
  {
    Some(Members(m) + {x})
  }

  /** A map-as-set with one member deleted; a nil map stays nil. */
  function Without(m: Option<set<string>>, x: string): (r: Option<set<string>>)
    ensures r.None? <==> m.None?
    ensures Members(r) == Members(m) - {x}
  {
    if m.None? then None else Some(m.value - {x})
  }

  /** `AddTempItemTag`: an empty tag is refused. */
  function AddTag(w: World, tag: string, f: Faults): World
  {
    if f.tempWriteFails || tag == "" then w
    else w.(temp := w.temp.(tags := With(w.temp.tags, tag)))
  }

  /** ReadyForNextAction: a menu token chosen from the reply keyboard. */
  function ReadyStep(w: World, e: Event, f: Faults): World
    requires w.state == ReadyForNextAction
  {
    var token := e.MessageTextOf();
    if token == "/setAddress" then SetState(w, SetAddress, f)
    else if token == "/setNotes" then SetState(w, SetNotes, f)
    else if token == "/setURL" then SetState(w, SetURL, f)
    else if token == "/addImage" then SetState(w, SetImages, f)
    else if token == "/addTag" then
      if f.stateWriteFails then w else w.(state := SetTags, messageTarget := e.MessageIdOf())
    else if token == "/removeTag" then
      if f.stateWriteFails then w else w.(state := RemoveTags, messageTarget := e.MessageIdOf())
    else if token == "/submit" then
      if f.stateWriteFails then w else w.(state := ConfirmSubmit, messageTarget := e.MessageIdOf())
    else if token == "/cancel" then SetState(w, Idle, f)
    else w  // "/preview" and anything else re-send the menu
  }

  /** SetTags: a tag typed or picked from the buttons, or the end token. */
  function TagStep(w: World, e: Event, f: Faults): World
    requires w.state == SetTags
  {
    if f.slashRejected then w
    else if e.IsMessage() then
      var tag := e.MessageTextOf();
      if IsDoneText(tag) then SetState(w, ReadyForNextAction, f) else AddTag(w, tag, f)
    else if |e.payload| == 0 then w
    else if e.payload == "/done" then SetState(w, ReadyForNextAction, f)
    else AddTag(w, e.payload, f)
  }

  /** RemoveTags: only button presses; each removes a tag until `/done`. */
  function RemoveStep(w: World, e: Event, f: Faults): World
    requires w.state == RemoveTags
  {
    if e.IsMessage() then w
    else if e.payload == "/done" then SetState(w, ReadyForNextAction, f)
    else if f.tempWriteFails then w
    else w.(temp := w.temp.(tags := Without(w.temp.tags, e.payload)))
  }

  /** ConfirmSubmit: only the yes/no buttons. On yes the staged item is
      stored under the chat target, then the state becomes Idle, then the
      chat target is cleared; each step happens only if the ones before
      it succeeded. */
  function ConfirmStep(w: World, e: Event, f: Faults): World
    requires w.state == ConfirmSubmit
  {
    if e.IsMessage() then w
    else if e.payload == "yes" then
      if f.chatTargetReadFails || f.commitFails then w
      else
        var committed := w.(items := Upsert(w.items, w.chatTarget, w.temp));
        if f.stateWriteFails then committed
        else
          var idle := committed.(state := Idle);
          if f.chatTargetWriteFails then idle else idle.(chatTarget := 0)
    else if e.payload == "no" then SetState(w, ReadyForNextAction, f)
    else w
  }

  /** One call of `addItemHandler`. */
  function Step(w: World, e: Event, f: Faults): (r: World)
    // States the handler has no case for are left alone.
    ensures !InAddWorkflow(w.state) ==> r == w
    // The workflow is left only for Idle, and only by cancel or by a
    // confirmed submit.
    ensures InAddWorkflow(w.state) ==> InAddWorkflow(r.state) || r.state == Idle
    ensures r.state == Idle && w.state != Idle ==>
      || (w.state == ReadyForNextAction && e == TextMsg("/cancel", e.MessageIdOf()))
      || (w.state == ConfirmSubmit && e == Button("yes"))
    // A state write that fails leaves the state where it was.
    ensures f.stateWriteFails ==> r.state == w.state
    // The stored items change only by committing the staged item.
    ensures r.items != w.items ==>
      && w.state == ConfirmSubmit && e == Button("yes")
      && r.items == Upsert(w.items, w.chatTarget, w.temp)
    // The staged item changes only in the field-entry states, and only if
    // the staging write succeeds; SetName replaces it by a fresh item, and
    // otherwise its tags change only in the two tag loops.
    ensures r.temp != w.temp ==>
      && !f.tempWriteFails
      && w.state in {SetName, SetAddress, SetNotes, SetURL, SetImages, SetTags, RemoveTags}
    ensures r.temp.name != w.temp.name ==> w.state == SetName
    ensures w.state == SetName && r.temp != w.temp ==> r.temp == NewItem(r.temp.name)
    ensures TagsOf(r.temp) != TagsOf(w.temp) ==> w.state in {SetName, SetTags, RemoveTags}
    // The chat target is only ever cleared, after a commit.
    ensures r.chatTarget != w.chatTarget ==> r.chatTarget == 0 && r.items == Upsert(w.items, w.chatTarget, w.temp)
    // The reply target is written only by the menu tokens that open a
    // keyboard, and then holds the token's message id.
    ensures r.messageTarget != w.messageTarget ==>
      && w.state == ReadyForNextAction
      && e.MessageTextOf() in {"/addTag", "/removeTag", "/submit"}
      && r.messageTarget == e.MessageIdOf()
    // An event on a channel the state does not accept changes nothing.
    ensures ExpectsText(w.state) && !e.TextMsg? ==> r == w
    ensures w.state == SetImages && !e.PhotoMsg? ==> r == w
    ensures (w.state == RemoveTags || w.state == ConfirmSubmit) && e.IsMessage() ==> r == w
  {
    match w.state
    case SetName =>
      if f.slashRejected || !e.TextMsg? || f.tempWriteFails then w
      else SetState(w.(temp := NewItem(e.text)), ReadyForNextAction, f)
    case ReadyForNextAction => ReadyStep(w, e, f)
    case SetAddress =>
      if !e.TextMsg? || f.tempWriteFails then w
      else SetState(w.(temp := w.temp.(address := e.text)), ReadyForNextAction, f)
    case SetNotes =>
      if !e.TextMsg? || f.tempWriteFails then w
      else SetState(w.(temp := w.temp.(notes := e.text)), ReadyForNextAction, f)
    case SetURL =>
      if !e.TextMsg? || f.tempWriteFails then w
      else SetState(w.(temp := w.temp.(url := e.text)), ReadyForNextAction, f)
    case SetImages =>
      if !e.PhotoMsg? || f.tempWriteFails then w
      else SetState(w.(temp := w.temp.(images := With(w.temp.images, e.imageRef))), ReadyForNextAction, f)
    case SetTags => TagStep(w, e, f)
    case RemoveTags => RemoveStep(w, e, f)
    case ConfirmSubmit => ConfirmStep(w, e, f)
    case _ => w
  }
}

=== FILE: add_item_props.dfy ===
/**
  Transition facts about `addItemHandler` (services/addPlace.go), state by
  state, and properties of whole runs of the add-item conversation.
*/
module AddItemProperties {
  import opened Wrappers
  import opened States
  import opened Items
  import opened Telegram
  import opened AddItem

  /** The tokens of the ReadyForNextAction menu that lead somewhere. */
  const MenuMoves: set<string> :=
    {"/setAddress", "/setNotes", "/setURL", "/addImage", "/addTag", "/removeTag", "/submit", "/cancel"}

  // ---------------------------------------------------------------------
  // One turn, state by state
  // ---------------------------------------------------------------------

  /** SetName: a slash-check rejection or a failed initialisation changes
      nothing; otherwise a fresh item with the text as its name is staged
      and the state becomes ReadyForNextAction if that write succeeds. */
  lemma SetNameTransitions(w: World, e: Event, f: Faults)
    requires w.state == SetName
    ensures f.slashRejected ==> Step(w, e, f) == w
    ensures !e.TextMsg? || f.tempWriteFails ==> Step(w, e, f) == w
    ensures !f.slashRejected && e.TextMsg? && !f.tempWriteFails ==>
      && Step(w, e, f).temp == NewItem(e.text)
      && Step(w, e, f).state == (if f.stateWriteFails then SetName else ReadyForNextAction)
  {
  }

  /** ReadyForNextAction: each field token leads to its entry state and
      nothing else changes. */
  lemma ReadyMenuTransitions(w: World, id: int, f: Faults)
    requires w.state == ReadyForNextAction && !f.stateWriteFails
    ensures Step(w, TextMsg("/setAddress", id), f) == w.(state := SetAddress)
    ensures Step(w, TextMsg("/setNotes", id), f) == w.(state := SetNotes)
    ensures Step(w, TextMsg("/setURL", id), f) == w.(state := SetURL)
    ensures Step(w, TextMsg("/addImage", id), f) == w.(state := SetImages)
  {
  }

  /** ReadyForNextAction: `/addTag` and `/removeTag` enter the tag loops
      and `/submit` asks for confirmation, each recording the token's
      message as the reply target; `/cancel` returns to Idle and keeps
      the staged item. */
  lemma ReadyMenuLoopTransitions(w: World, id: int, f: Faults)
    requires w.state == ReadyForNextAction && !f.stateWriteFails
    ensures Step(w, TextMsg("/addTag", id), f) == w.(state := SetTags, messageTarget := id)
    ensures Step(w, TextMsg("/removeTag", id), f) == w.(state := RemoveTags, messageTarget := id)
    ensures Step(w, TextMsg("/submit", id), f) == w.(state := ConfirmSubmit, messageTarget := id)
    ensures Step(w, TextMsg("/cancel", id), f) == w.(state := Idle)
  {
  }

  /** ReadyForNextAction: `/preview`, any other text, a photo or a button
      press leave everything as it was, and so does any menu token whose
      state write fails. */
  lemma ReadyIgnores(w: World, e: Event, f: Faults)
    requires w.state == ReadyForNextAction
    requires e.MessageTextOf() !in MenuMoves || f.stateWriteFails
    ensures Step(w, e, f) == w
  {
  }

  /** SetAddress, SetNotes and SetURL: a text overwrites the field and the
      state returns to ReadyForNextAction; a failed field write changes
      nothing. */
  lemma SetFieldTransitions(w: World, text: string, id: int, f: Faults)
    requires w.state in {SetAddress, SetNotes, SetURL}
    ensures f.tempWriteFails ==> Step(w, TextMsg(text, id), f) == w
    ensures !f.tempWriteFails && !f.stateWriteFails ==>
      var r := Step(w, TextMsg(text, id), f);
      && r.state == ReadyForNextAction
      && r.temp == (if w.state == SetAddress then w.temp.(address := text)
                    else if w.state == SetNotes then w.temp.(notes := text)
                    else w.temp.(url := text))
      && r.(state := w.state, temp := w.temp) == w
  {
  }

  /** SetImages: a failed image write changes nothing, not even the state;
      otherwise the photo adds its reference to the image set (a repeat
      adds nothing new) and the state returns to ReadyForNextAction if
      that write succeeds. */
  lemma SetImageTransition(w: World, ref: string, id: int, f: Faults)
    requires w.state == SetImages
    ensures f.tempWriteFails ==> Step(w, PhotoMsg(ref, id), f) == w
    ensures !f.tempWriteFails ==>
      var r := Step(w, PhotoMsg(ref, id), f);
      && r.state == (if f.stateWriteFails then SetImages else ReadyForNextAction)
      && ImagesOf(r.temp) == ImagesOf(w.temp) + {ref}
      && r.temp == w.temp.(images := r.temp.images)
      && r.(state := w.state, temp := w.temp) == w
      && (ref in ImagesOf(w.temp) ==> ImagesOf(r.temp) == ImagesOf(w.temp))
  {
  }

  /** SetTags: the end token, typed or pressed, returns to
      ReadyForNextAction. */
  lemma TagLoopEnds(w: World, e: Event, f: Faults)
    requires w.state == SetTags && !f.slashRejected && !f.stateWriteFails
    requires (e.TextMsg? && IsDoneText(e.text)) || e == Button("/done")
    ensures Step(w, e, f) == w.(state := ReadyForNextAction)
  {
  }

  /** SetTags: any other non-empty tag, typed or pressed, joins the staged
      tags and the loop goes on. */
  lemma TagLoopAdds(w: World, e: Event, f: Faults)
    requires w.state == SetTags && !f.slashRejected && !f.tempWriteFails
    requires (e.TextMsg? && !IsDoneText(e.text) && e.text != "") || (e.Button? && e.payload != "/done" && e.payload != "")
    ensures var r := Step(w, e, f);
      && r.state == SetTags
      && TagsOf(r.temp) == TagsOf(w.temp) + {if e.TextMsg? then e.text else e.payload}
      && r == w.(temp := w.temp.(tags := r.temp.tags))
  {
  }

  /** Adding the same tag twice leaves it there once: the second add
      changes nothing, and on an item without tags the result is that one
      tag. */
  lemma DuplicateTagOnce(w: World, tag: string, id: int)
    requires w.state == SetTags && tag != "" && !IsDoneText(tag)
    ensures var once := Step(w, TextMsg(tag, id), NoFaults);
      var twice := Step(once, TextMsg(tag, id), NoFaults);
      && TagsOf(twice.temp) == TagsOf(once.temp) == TagsOf(w.temp) + {tag}
      && (TagsOf(w.temp) == {} ==> TagsOf(twice.temp) == {tag} && |TagsOf(twice.temp)| == 1)
  {
  }

  /** RemoveTags: text is refused; `/done` returns to ReadyForNextAction;
      any other button removes that tag (a tag not present is a no-op)
      and the loop goes on. */
  lemma RemoveTagTransitions(w: World, e: Event, f: Faults)
    requires w.state == RemoveTags
    ensures e.IsMessage() ==> Step(w, e, f) == w
    ensures e == Button("/done") && !f.stateWriteFails ==> Step(w, e, f) == w.(state := ReadyForNextAction)
    ensures e.Button? && e.payload != "/done" && !f.tempWriteFails ==>
      var r := Step(w, e, f);
      && r.state == RemoveTags
      && TagsOf(r.temp) == TagsOf(w.temp) - {e.payload}
      && (e.payload !in TagsOf(w.temp) ==> TagsOf(r.temp) == TagsOf(w.temp))
      && r == w.(temp := w.temp.(tags := r.temp.tags))
  {
  }

  /** ConfirmSubmit: text is refused; `no` returns to ReadyForNextAction;
      other payloads change nothing; `yes` reaches Idle only after the
      staged item was stored under the chat target, and then clears the
      chat target. */
  lemma ConfirmTransitions(w: World, e: Event, f: Faults)
    requires w.state == ConfirmSubmit
    ensures e.IsMessage() ==> Step(w, e, f) == w
    ensures e == Button("no") && !f.stateWriteFails ==> Step(w, e, f) == w.(state := ReadyForNextAction)
    ensures e.Button? && e.payload != "yes" && e.payload != "no" ==> Step(w, e, f) == w
    ensures Step(w, e, f).state == Idle ==>
      && e == Button("yes")
      && Step(w, e, f).items == Upsert(w.items, w.chatTarget, w.temp)
    ensures e == Button("yes") && f == NoFaults ==>
      Step(w, e, f) == w.(state := Idle, chatTarget := 0, items := Upsert(w.items, w.chatTarget, w.temp))
  {
  }

  // ---------------------------------------------------------------------
  // Runs of turns
  // ---------------------------------------------------------------------

  /** One turn: the event received and the external calls that fail. */
  datatype Turn = Turn(event: Event, faults: Faults)

  /** The world after handling the turns in order. */
  function Run(w: World, turns: seq<Turn>): World
    decreases |turns|
  {
    if |turns| == 0 then w else Run(Step(w, turns[0].event, turns[0].faults), turns[1..])
  }

  lemma {:induction false} RunAppend(w: World, a: seq<Turn>, b: seq<Turn>)
    ensures Run(w, a + b) == Run(Run(w, a), b)
    decreases |a|
  {
    if |a| == 0 {
      assert a + b == b;
    } else {
      assert (a + b)[0] == a[0];
      assert (a + b)[1..] == a[1..] + b;
      RunAppend(Step(w, a[0].event, a[0].faults), a[1..], b);
    }
  }

  /** Whatever arrives, a conversation inside the add workflow stays in it
      or returns to Idle, and an Idle one stays Idle. */
  lemma {:induction false} RunStaysInWorkflow(w: World, turns: seq<Turn>)
    requires InAddWorkflow(w.state) || w.state == Idle
    ensures InAddWorkflow(Run(w, turns).state) || Run(w, turns).state == Idle
    ensures w.state == Idle ==> Run(w, turns) == w
    decreases |turns|
  {
    if |turns| > 0 {
      RunStaysInWorkflow(Step(w, turns[0].event, turns[0].faults), turns[1..]);
    }
  }

  /** Stored items are never lost: every (chat, name) stored before a run
      is still stored after it. */
  lemma {:induction false} RunKeepsItems(w: World, turns: seq<Turn>, chat: ChatId, name: string)
    requires chat in w.items && name in w.items[chat]
    ensures chat in Run(w, turns).items && name in Run(w, turns).items[chat]
    decreases |turns|
  {
    if |turns| > 0 {
      RunKeepsItems(Step(w, turns[0].event, turns[0].faults), turns[1..], chat, name);
    }
  }

  /** The members of a sequence. */
  function Elements(tags: seq<string>): set<string>
  {
    set i | 0 <= i < |tags| :: tags[i]
  }

  /** Typing each tag in turn, with no failures. */
  function TypedTags(tags: seq<string>): (turns: seq<Turn>)
    ensures |turns| == |tags|
  {
    if |tags| == 0 then [] else [Turn(TextMsg(tags[0], 0), NoFaults)] + TypedTags(tags[1..])
  }

  /** Pressing each tag's button in turn, with no failures. */
  function PressedTags(tags: seq<string>): (turns: seq<Turn>)
    ensures |turns| == |tags|
  {
    if |tags| == 0 then [] else [Turn(Button(tags[0]), NoFaults)] + PressedTags(tags[1..])
  }

  /** The tag loop: typing any number of tags (none the end token) keeps
      the conversation in SetTags and adds exactly those tags. */
  lemma {:induction false} TagLoopRun(w: World, tags: seq<string>)
    requires w.state == SetTags
    requires forall i :: 0 <= i < |tags| ==> tags[i] != "" && !IsDoneText(tags[i])
    ensures var r := Run(w, TypedTags(tags));
      && r.state == SetTags
      && TagsOf(r.temp) == TagsOf(w.temp) + Elements(tags)
      && r.temp.(tags := w.temp.tags) == w.temp
      && r.(temp := w.temp) == w
    decreases |tags|
  {
    if |tags| > 0 {
      var w1 := Step(w, TextMsg(tags[0], 0), NoFaults);
      TagLoopRun(w1, tags[1..]);
      assert Elements(tags) == {tags[0]} + Elements(tags[1..]);
    }
  }

  /** The remove loop: pressing any number of tag buttons (none `/done`)
      keeps the conversation in RemoveTags and removes exactly those
      tags. */
  lemma {:induction false} RemoveLoopRun(w: World, tags: seq<string>)
    requires w.state == RemoveTags
    requires forall i :: 0 <= i < |tags| ==> tags[i] != "/done"
    ensures var r := Run(w, PressedTags(tags));
      && r.state == RemoveTags
      && TagsOf(r.temp) == TagsOf(w.temp) - Elements(tags)
      && r.temp.(tags := w.temp.tags) == w.temp
      && r.(temp := w.temp) == w
    decreases |tags|
  {
    if |tags| > 0 {
      var w1 := Step(w, Button(tags[0]), NoFaults);
      RemoveLoopRun(w1, tags[1..]);
      assert Elements(tags) == {tags[0]} + Elements(tags[1..]);
    }
  }

  // ---------------------------------------------------------------------
  // Editing sessions against a reference definition
  // ---------------------------------------------------------------------

  /** One edit a user can make from the menu. */
  datatype Edit =
    | EditAddress(address: string)
    | EditNotes(notes: string)
    | EditURL(url: string)
    | AddImage(imageRef: string)
    | AddTagEdit(tag: string)
    | RemoveTagEdit(removed: string)

  /** Edits the conversation can carry out: a tag to add is non-empty, not
      an end token and free of '/', which the slash check exists to
      refuse; a tag to remove is not `/done`. The remove loop runs no slash
      check. */
  predicate ValidEdit(d: Edit)
  {
    match d
    case AddTagEdit(t) => t != "" && !IsDoneText(t) && '/' !in t
    case RemoveTagEdit(t) => t != "/done"
    case _ => true
  }

  /** The intended effect of an edit on an item, independent of the
      conversation: fields are overwritten, images and tags are sets. */
  function ApplyEdit(p: Item, d: Edit): Item
  {
    match d
    case EditAddress(a) => p.(address := a)
    case EditNotes(n) => p.(notes := n)
    case EditURL(u) => p.(url := u)
    case AddImage(ref) => p.(images := Some(ImagesOf(p) + {ref}))
    case AddTagEdit(t) => p.(tags := Some(TagsOf(p) + {t}))
    case RemoveTagEdit(t) => p.(tags := if p.tags.None? then None else Some(p.tags.value - {t}))
  }

  function ApplyEdits(p: Item, ds: seq<Edit>): Item
    decreases |ds|
  {
    if |ds| == 0 then p else ApplyEdits(ApplyEdit(p, ds[0]), ds[1..])
  }

  function Ok(e: Event): Turn
  {
    Turn(e, NoFaults)
  }

  /** The turns that carry out one edit from ReadyForNextAction. */
  function EditTurns(d: Edit): seq<Turn>
  {
    match d
    case EditAddress(a) => [Ok(TextMsg("/setAddress", 0)), Ok(TextMsg(a, 0))]
    case EditNotes(n) => [Ok(TextMsg("/setNotes", 0)), Ok(TextMsg(n, 0))]
    case EditURL(u) => [Ok(TextMsg("/setURL", 0)), Ok(TextMsg(u, 0))]
    case AddImage(ref) => [Ok(TextMsg("/addImage", 0)), Ok(PhotoMsg(ref, 0))]
    case AddTagEdit(t) => [Ok(TextMsg("/addTag", 0)), Ok(TextMsg(t, 0)), Ok(TextMsg("done", 0))]
    case RemoveTagEdit(t) => [Ok(TextMsg("/removeTag", 0)), Ok(Button(t)), Ok(Button("/done"))]
  }

  function Script(ds: seq<Edit>): seq<Turn>
    decreases |ds|
  {
    if |ds| == 0 then [] else EditTurns(ds[0]) + Script(ds[1..])
  }

  /** The turns that submit and confirm. */
  const SubmitTurns: seq<Turn> := [Ok(TextMsg("/submit", 0)), Ok(Button("yes"))]

  /** One edit carried out by the conversation has the reference effect
      and ends back in ReadyForNextAction. */
  lemma {:induction false} EditTurnsEffect(w: World, d: Edit)
    requires w.state == ReadyForNextAction && ValidEdit(d)
    ensures var r := Run(w, EditTurns(d));
      && r.state == ReadyForNextAction
      && r.temp == ApplyEdit(w.temp, d)
      && r.items == w.items && r.chatTarget == w.chatTarget
  {
    var turns := EditTurns(d);
    var w1 := Step(w, turns[0].event, NoFaults);
    var w2 := Step(w1, turns[1].event, NoFaults);
    assert Run(w, turns) == Run(w2, turns[2..]) by {
      assert Run(w, turns) == Run(w1, turns[1..]);
      assert turns[1..][0] == turns[1] && turns[1..][1..] == turns[2..];
    }
    if |turns| == 3 {
      var w3 := Step(w2, turns[2].event, NoFaults);
      assert Run(w2, turns[2..]) == Run(w3, turns[3..]) by {
        assert turns[2..][0] == turns[2] && turns[2..][1..] == turns[3..];
      }
      assert Run(w3, turns[3..]) == w3;
    } else {
      assert Run(w2, turns[2..]) == w2;
    }
  }

  /** Any sequence of edits carried out by the conversation leaves the
      staged item equal to the reference result: each field its last
      written value, the images and tags the sets built by the adds and
      removes. */
  lemma {:induction false} ScriptEffect(w: World, ds: seq<Edit>)
    requires w.state == ReadyForNextAction
    requires forall i :: 0 <= i < |ds| ==> ValidEdit(ds[i])
    ensures var r := Run(w, Script(ds));
      && r.state == ReadyForNextAction
      && r.temp == ApplyEdits(w.temp, ds)
      && r.items == w.items && r.chatTarget == w.chatTarget
    decreases |ds|
  {
    if |ds| > 0 {
      RunAppend(w, EditTurns(ds[0]), Script(ds[1..]));
      EditTurnsEffect(w, ds[0]);
      ScriptEffect(Run(w, EditTurns(ds[0])), ds[1..]);
    }
  }

  /** Edits followed by submit and yes store the reference item under the
      chat target (replacing any item of that name), return to Idle and
      clear the chat target. */
  lemma {:induction false} SessionCommits(w: World, ds: seq<Edit>)
    requires w.state == ReadyForNextAction
    requires forall i :: 0 <= i < |ds| ==> ValidEdit(ds[i])
    ensures var r := Run(w, Script(ds) + SubmitTurns);
      && r.state == Idle
      && r.chatTarget == 0
      && r.items == Upsert(w.items, w.chatTarget, ApplyEdits(w.temp, ds))
    ensures ApplyEdits(w.temp, ds).name == w.temp.name
    ensures Run(w, Script(ds) + SubmitTurns).items[w.chatTarget][w.temp.name] == ApplyEdits(w.temp, ds)
  {
    RunAppend(w, Script(ds), SubmitTurns);
    ScriptEffect(w, ds);
    EditsKeepName(w.temp, ds);
    var edited := Run(w, Script(ds));
    var confirming := Step(edited, TextMsg("/submit", 0), NoFaults);
    assert confirming.state == ConfirmSubmit && confirming.temp == edited.temp by {
      ReadyMenuLoopTransitions(edited, 0, NoFaults);
    }
    var done := Step(confirming, Button("yes"), NoFaults);
    assert done == confirming.(state := Idle, chatTarget := 0, items := Upsert(confirming.items, confirming.chatTarget, confirming.temp)) by {
      ConfirmTransitions(confirming, Button("yes"), NoFaults);
    }
    assert Run(edited, SubmitTurns) == done by {
      assert SubmitTurns[1..][1..] == [];
    }
  }

  /** No edit renames the item. */
  lemma {:induction false} EditsKeepName(p: Item, ds: seq<Edit>)
    ensures ApplyEdits(p, ds).name == p.name
    decreases |ds|
  {
    if |ds| > 0 {
      EditsKeepName(ApplyEdit(p, ds[0]), ds[1..]);
    }
  }

  // ---------------------------------------------------------------------
  // Button presses: the payload reading and the as-written reading
  // ---------------------------------------------------------------------

  /** A button press and nothing else. */
  predicate LonePress(u: Update)
  {
    u.message.None? && u.callbackQuery.Some?
  }

  /** Read by its payload, a press reaches the handler as intended: `yes`
      under the confirmation stores the staged item, `/done` ends the
      remove loop, and a tag name joins the staged tags, whatever the
      keyboard's prompt says. */
  lemma PressedButtonsReachHandler(w: World, u: Update)
    requires LonePress(u)
    ensures Classify(u) == Some(Button(u.callbackQuery.value.data))
    ensures var data := u.callbackQuery.value.data;
      var r := Step(w, Button(data), NoFaults);
      && (w.state == ConfirmSubmit && data == "yes" ==>
            r == w.(state := Idle, chatTarget := 0, items := Upsert(w.items, w.chatTarget, w.temp)))
      && (w.state == RemoveTags && data == "/done" ==> r == w.(state := ReadyForNextAction))
      && (w.state == SetTags && data != "" && data != "/done" ==>
            r.state == SetTags && TagsOf(r.temp) == TagsOf(w.temp) + {data})
  {
  }

  /** Read as telegram_utils.go's `GetCallbackQueryMessage` reads it, a
      press in ConfirmSubmit changes nothing unless the prompt itself is
      `yes` or `no`: pressing `yes` under "Are you really ready to
      submit?" never stores the item. */
  lemma AsWrittenConfirmNeverCommits(w: World, u: Update, f: Faults)
    requires w.state == ConfirmSubmit && LonePress(u)
    requires u.callbackQuery.value.message.text !in {"yes", "no"}
    ensures ClassifyAsWritten(u).Some?
    ensures Step(w, ClassifyAsWritten(u).value, f) == w
  {
  }

  /** Read as telegram_utils.go's `GetCallbackQueryMessage` reads it, a
      press never ends the remove loop unless the prompt is `/done`; it
      removes the prompt instead of the pressed tag. */
  lemma AsWrittenRemoveLoopNeverEnds(w: World, u: Update, f: Faults)
    requires w.state == RemoveTags && LonePress(u)
    requires u.callbackQuery.value.message.text != "/done"
    ensures ClassifyAsWritten(u).Some?
    ensures var r := Step(w, ClassifyAsWritten(u).value, f);
      && r.state == RemoveTags
      && (!f.tempWriteFails ==> TagsOf(r.temp) == TagsOf(w.temp) - {u.callbackQuery.value.message.text})
      && (f.tempWriteFails ==> r == w)
  {
  }

  /** Read as telegram_utils.go's `GetCallbackQueryMessage` reads it,
      pressing any tag button under "Existing tags:" stores the prompt as
      a tag. */
  lemma AsWrittenTagIsPrompt(w: World, data: string, m: Message)
    requires w.state == SetTags && m.text == "Existing tags:"
    ensures var u := Update(None, Some(CallbackQuery(data, m)));
      && ClassifyAsWritten(u) == Some(Button("Existing tags:"))
      && Step(w, Button("Existing tags:"), NoFaults).state == SetTags
      && TagsOf(Step(w, Button("Existing tags:"), NoFaults).temp) == TagsOf(w.temp) + {"Existing tags:"}
  {
  }
}

=== FILE: decimal.dfy ===
/** Base-10 rendering of integers (Go's `strconv.FormatInt(x, 10)`,
    `strconv.Itoa` and `%v`) together with a parser that undoes it. */
module Decimal {
  import opened Wrappers

  predicate IsDigit(c: char)
  {
    '0' <= c <= '9'
  }

  predicate AllDigits(s: string)
  {
    forall i :: 0 <= i < |s| ==> IsDigit(s[i])
  }

  function DigitChar(d: nat): (c: char)
    requires d < 10
    ensures IsDigit(c)
  {
    ('0' as int + d) as char
  }

  function DigitValue(c: char): (d: nat)
    requires IsDigit(c)
    ensures d < 10
  {
    (c as int) - ('0' as int)
  }

  /** Digits of a natural number, most significant first, with no
      leading zero. */
  function NatToString(n: nat): (s: string)
    ensures |s| > 0 && AllDigits(s)
    ensures s[0] == '0' ==> n == 0
    decreases n
  {
    if n < 10 then [DigitChar(n)] else NatToString(n / 10) + [DigitChar(n % 10)]
  }

  /** Signed rendering: a minus sign before the digits of a negative value. */
  function IntToString(n: int): (s: string)
    ensures |s| > 0
    ensures s[0] == '-' <==> n < 0
  {
    if n < 0 then "-" + NatToString(-n) else NatToString(n)
  }

  /** The value a run of digits denotes. */
  function DigitsValue(s: string): nat
    requires AllDigits(s)
    decreases |s|
  {
    if |s| == 0 then 0 else DigitsValue(s[..|s| - 1]) * 10 + DigitValue(s[|s| - 1])
  }

  /** Reads an optional minus sign followed by at least one digit. */
  function ParseInt(s: string): Option<int>
  {
    if |s| > 1 && s[0] == '-' && AllDigits(s[1..]) then
      var magnitude: int := DigitsValue(s[1..]);
      Some(-magnitude)
    else if |s| > 0 && AllDigits(s) then Some(DigitsValue(s))
    else None
  }

  lemma {:induction false} NatToStringValue(n: nat)
    ensures DigitsValue(NatToString(n)) == n
    decreases n
  {
    var s := NatToString(n);
    if n >= 10 {
      NatToStringValue(n / 10);
      assert s[..|s| - 1] == NatToString(n / 10);
      assert DigitValue(s[|s| - 1]) == n % 10;
    }
  }

  /** Rendering an integer and parsing the text back gives the integer. */
  lemma IntToStringRoundTrip(n: int)
    ensures ParseInt(IntToString(n)) == Some(n)
  {
    if n < 0 {
      var s := IntToString(n);
      assert s[1..] == NatToString(-n);
      NatToStringValue(-n);
    } else {
      NatToStringValue(n);
    }
  }

  /** Distinct integers render as distinct text. */
  lemma IntToStringInjective(a: int, b: int)
    ensures IntToString(a) == IntToString(b) ==> a == b
  {
    IntToStringRoundTrip(a);
    IntToStringRoundTrip(b);
  }
}

=== FILE: items.dfy ===
/**
  The item record (`PlaceDetails` in services/constants/constants.go) and
  the enumeration of its key sets.
*/
module Items {
  import opened Wrappers

  /** An item being built or stored. Images and Tags are Go maps used as
      sets; None stands for a nil map, which Go distinguishes from an
      empty one when rendering. */
  datatype Item = Item(
    name: string,
    address: string,
    notes: string,
    url: string,
    images: Option<set<string>>,
    tags: Option<set<string>>)

  /** The item InitItem stages: only the name is set, both maps are nil. */
  function NewItem(name: string): (p: Item)
    ensures p.name == name && p.address == "" && p.notes == "" && p.url == ""
    ensures p.images == None && p.tags == None
  {
    Item(name, "", "", "", None, None)
  }

  /** The members of a map that may be nil; a nil map has none. */
  function Members(m: Option<set<string>>): set<string>
  {
    if m.Some? then m.value else {}
  }

  function TagsOf(p: Item): set<string>
  {
    Members(p.tags)
  }

  function ImagesOf(p: Item): set<string>
  {
    Members(p.images)
  }

  /** `r` lists every member of `s` exactly once, in some order. */
  predicate IsEnumeration(r: seq<string>, s: set<string>)
  {
    && |r| == |s|
    && (forall i :: 0 <= i < |r| ==> r[i] in s)
    && (forall x :: x in s ==> x in r)
    && (forall i, j :: 0 <= i < j < |r| ==> r[i] != r[j])
  }

  /** A `for k := range m` loop collecting the keys of a map. Go's
      iteration order is unspecified, so each key is picked arbitrarily. */
  method Enumerate(s: set<string>) returns (r: seq<string>)
    ensures IsEnumeration(r, s)
  {
    r := [];
    var rest := s;
    while rest != {}
      invariant rest <= s
      invariant |r| + |rest| == |s|
      invariant forall i :: 0 <= i < |r| ==> r[i] in s && r[i] !in rest
      invariant forall x :: x in s ==> x in r || x in rest
      invariant forall i, j :: 0 <= i < j < |r| ==> r[i] != r[j]
      decreases rest
    {
      var x :| x in rest;
      r := r + [x];
      rest := rest - {x};
    }
  }

  /** `GetImageIDs`: every image key exactly once; nothing for a nil map. */
  method GetImageIDs(p: Item) returns (ids: seq<string>)
    ensures p.images == None ==> ids == []
    ensures IsEnumeration(ids, ImagesOf(p))
    ensures |ids| == |ImagesOf(p)|
  {
    if p.images == None {
      return [];
    }
    ids := Enumerate(p.images.value);
  }
}

=== FILE: place_text.dfy ===
/**
  The item-details text of `SendPlaceDetails`
  (services/utils/telegram_utils.go): one line per set field, in a fixed
  order, and the image ids to send after it.
*/
module PlaceText {
  import opened Wrappers
  import opened Items
  import Decimal

  /** One line of the details text. */
  datatype DetailLine =
    | NameLine(name: string)
    | AddressLine(address: string)
    | URLLine(url: string)
    | ImagesLine(count: nat)
    | TagsLine(tags: seq<string>)
    | NotesLine(notes: string)

  /** Position of a line kind in the text. */
  function Rank(l: DetailLine): nat
  {
    match l
    case NameLine(_) => 0
    case AddressLine(_) => 1
    case URLLine(_) => 2
    case ImagesLine(_) => 3
    case TagsLine(_) => 4
    case NotesLine(_) => 5
  }

  /** The line of rank `k` for an item. */
  function LineAt(p: Item, tagOrder: seq<string>, k: nat): (l: DetailLine)
    requires k < 6
    ensures Rank(l) == k
  {
    if k == 0 then NameLine(p.name)
    else if k == 1 then AddressLine(p.address)
    else if k == 2 then URLLine(p.url)
    else if k == 3 then ImagesLine(|ImagesOf(p)|)
    else if k == 4 then TagsLine(tagOrder)
    else NotesLine(p.notes)
  }

  /** Whether the line of rank `k` appears: text fields when non-empty,
      the image count and the tag list when the map is not nil. */
  predicate Shown(p: Item, k: nat)
  {
    if k == 0 then p.name != ""
    else if k == 1 then p.address != ""
    else if k == 2 then p.url != ""
    else if k == 3 then p.images.Some?
    else if k == 4 then p.tags.Some?
    else p.notes != ""
  }

  /** The shown lines of rank `k` and above, in rank order. */
  function LinesFrom(p: Item, tagOrder: seq<string>, k: nat): (lines: seq<DetailLine>)
    requires k <= 6
    ensures forall i :: 0 <= i < |lines| ==>
      k <= Rank(lines[i]) < 6 && Shown(p, Rank(lines[i])) && lines[i] == LineAt(p, tagOrder, Rank(lines[i]))
    ensures forall j :: k <= j < 6 && Shown(p, j) ==> LineAt(p, tagOrder, j) in lines
    ensures forall i, j :: 0 <= i < j < |lines| ==> Rank(lines[i]) < Rank(lines[j])
    decreases 6 - k
  {
    if k == 6 then []
    else
      var rest := LinesFrom(p, tagOrder, k + 1);
      if Shown(p, k) then [LineAt(p, tagOrder, k)] + rest else rest
  }

  /** The lines of the details text for an item whose tags are listed in
      `tagOrder`. */
  function DetailLines(p: Item, tagOrder: seq<string>): seq<DetailLine>
  {
    LinesFrom(p, tagOrder, 0)
  }

  /** Which lines the details text holds: the line of each rank exactly
      when that field is shown, no other line, and in the fixed order
      Name, Address, URL, Images, Tags, Notes. */
  lemma DetailLinesShape(p: Item, tagOrder: seq<string>)
    ensures var lines := DetailLines(p, tagOrder);
      && (forall l :: l in lines ==> Rank(l) < 6 && l == LineAt(p, tagOrder, Rank(l)))
      && (forall k :: 0 <= k < 6 ==> (LineAt(p, tagOrder, k) in lines <==> Shown(p, k)))
      && (forall i, j :: 0 <= i < j < |lines| ==> Rank(lines[i]) < Rank(lines[j]))
  {
    var lines := DetailLines(p, tagOrder);
    forall k | 0 <= k < 6 && LineAt(p, tagOrder, k) in lines
      ensures Shown(p, k)
    {
      var i :| 0 <= i < |lines| && lines[i] == LineAt(p, tagOrder, k);
    }
  }

  /** The same, field by field: a text field's line appears exactly when
      the field is non-empty, the image count and tag list exactly when
      their maps are not nil. */
  lemma DetailLinesFields(p: Item, tagOrder: seq<string>)
    ensures var lines := DetailLines(p, tagOrder);
      && (NameLine(p.name) in lines <==> p.name != "")
      && (AddressLine(p.address) in lines <==> p.address != "")
      && (URLLine(p.url) in lines <==> p.url != "")
      && (ImagesLine(|ImagesOf(p)|) in lines <==> p.images.Some?)
      && (TagsLine(tagOrder) in lines <==> p.tags.Some?)
      && (NotesLine(p.notes) in lines <==> p.notes != "")
  {
    DetailLinesShape(p, tagOrder);
    assert NameLine(p.name) == LineAt(p, tagOrder, 0);
    assert AddressLine(p.address) == LineAt(p, tagOrder, 1);
    assert URLLine(p.url) == LineAt(p, tagOrder, 2);
    assert ImagesLine(|ImagesOf(p)|) == LineAt(p, tagOrder, 3);
    assert TagsLine(tagOrder) == LineAt(p, tagOrder, 4);
    assert NotesLine(p.notes) == LineAt(p, tagOrder, 5);
  }

  /** Go's `strings.Join`. */
  function Join(parts: seq<string>, sep: string): string
  {
    if |parts| == 0 then ""
    else if |parts| == 1 then parts[0]
    else parts[0] + sep + Join(parts[1..], sep)
  }

  /** The text of one line; the notes line is the only one without a
      trailing newline. */
  function RenderLine(l: DetailLine): string
  {
    match l
    case NameLine(n) => "Name: " + n + "\n"
    case AddressLine(a) => "Address: " + a + "\n"
    case URLLine(u) => "URL: " + u + "\n"
    case ImagesLine(c) => "Images: " + Decimal.NatToString(c) + "\n"
    case TagsLine(ts) => "Tags: " + Join(ts, ", ") + "\n"
    case NotesLine(n) => "Notes: " + n
  }

  function Render(lines: seq<DetailLine>): string
  {
    if |lines| == 0 then "" else RenderLine(lines[0]) + Render(lines[1..])
  }

  /** The text a freshly named item previews as: just its name line. */
  lemma NewItemText(name: string, tagOrder: seq<string>)
    requires name != ""
    ensures Render(DetailLines(NewItem(name), tagOrder)) == "Name: " + name + "\n"
  {
    var lines := DetailLines(NewItem(name), tagOrder);
    assert LineAt(NewItem(name), tagOrder, 0) in lines;
    assert |lines| == 1;
  }

  /** A named item's text starts with its name line. */
  lemma NameLineFirst(p: Item, tagOrder: seq<string>)
    requires p.name != ""
    ensures var text := Render(DetailLines(p, tagOrder));
      var head := "Name: " + p.name + "\n";
      |head| <= |text| && text[..|head|] == head
  {
    var lines := DetailLines(p, tagOrder);
    assert LineAt(p, tagOrder, 0) in lines;
    assert lines[0] == NameLine(p.name);
  }

  /** `SendPlaceDetails`: the details text and the image ids to send
      (none for a nil image map). `tagOrder` is the order in which the map
      iteration happened to list the tags. */
  method SendPlaceDetails(p: Item) returns (text: string, imageIds: seq<string>, ghost tagOrder: seq<string>)
    ensures p.images.None? ==> imageIds == []
    ensures IsEnumeration(imageIds, ImagesOf(p))
    ensures IsEnumeration(tagOrder, TagsOf(p))
    ensures text == Render(DetailLines(p, tagOrder))
  {
    imageIds := [];
    if p.images.Some? {
      imageIds := GetImageIDs(p);
    }
    var order := Enumerate(TagsOf(p));
    tagOrder := order;
    text := Render(DetailLines(p, order));
  }
}

=== FILE: states.dfy ===
/**
  The conversation states of services/constants/constants.go, their
  iota numbering, and the two category predicates that partition them.
*/
module States {
  import opened Wrappers

  /** One value per state constant. addPlace.go also names RemoveTags and
      ConfirmSubmit (there `AddNewRemoveTags`, `ConfirmAddItemSubmit`),
      which constants.go does not declare; they are included here. */
  datatype State =
    | Idle
    | ReadyForNextAction
    | SetName
    | SetAddress
    | SetNotes
    | SetURL
    | SetImages
    | SetTags
    | RemoveTags
    | ConfirmSubmit
    | QuerySelectType
    | QueryOneTagOrName
    | QueryOneSetName
    | QuerySetTags
    | QueryFewSetNum
    | QueryRetrieve
    | Finished

  /** The integer a state is stored as: its position in the `iota` block.
      The two states constants.go does not declare are assumed to come
      after Finished. */
  function Ordinal(s: State): nat
  {
    match s
    case Idle => 0
    case ReadyForNextAction => 1
    case SetName => 2
    case SetAddress => 3
    case SetNotes => 4
    case SetURL => 5
    case SetImages => 6
    case SetTags => 7
    case QuerySelectType => 8
    case QueryOneTagOrName => 9
    case QueryOneSetName => 10
    case QuerySetTags => 11
    case QueryFewSetNum => 12
    case QueryRetrieve => 13
    case Finished => 14
    case RemoveTags => 15
    case ConfirmSubmit => 16
  }

  /** Reads a stored integer back as a state; integers no constant names
      read as None. */
  function FromOrdinal(n: int): Option<State>
  {
    if n == 0 then Some(Idle)
    else if n == 1 then Some(ReadyForNextAction)
    else if n == 2 then Some(SetName)
    else if n == 3 then Some(SetAddress)
    else if n == 4 then Some(SetNotes)
    else if n == 5 then Some(SetURL)
    else if n == 6 then Some(SetImages)
    else if n == 7 then Some(SetTags)
    else if n == 8 then Some(QuerySelectType)
    else if n == 9 then Some(QueryOneTagOrName)
    else if n == 10 then Some(QueryOneSetName)
    else if n == 11 then Some(QuerySetTags)
    else if n == 12 then Some(QueryFewSetNum)
    else if n == 13 then Some(QueryRetrieve)
    else if n == 14 then Some(Finished)
    else if n == 15 then Some(RemoveTags)
    else if n == 16 then Some(ConfirmSubmit)
    else None
  }

  /** Storing a state and reading it back gives the same state, and the
      numbering is one-to-one. */
  lemma OrdinalRoundTrip(s: State, n: int)
    ensures FromOrdinal(Ordinal(s)) == Some(s)
    ensures FromOrdinal(n) == Some(s) ==> Ordinal(s) == n
  {
  }

  /** The state stored for a key; a key with nothing stored reads as the
      zero value, which is Idle. */
  function StoredState<K>(stored: map<K, int>, key: K): (s: Option<State>)
    ensures key !in stored ==> s == Some(Idle)
    ensures key in stored ==> (s.Some? <==> 0 <= stored[key] <= 16)
    ensures s.Some? ==> Ordinal(s.value) == (if key in stored then stored[key] else 0)
  {
    FromOrdinal(if key in stored then stored[key] else 0)
  }

  /** True for the states of the older add-place flow. */
  predicate IsAddingNewPlace(s: State)
  {
    match s
    case ReadyForNextAction | SetName | SetAddress | SetNotes | SetURL | SetImages | SetTags => true
    case _ => false
  }

  /** True for the six query states. */
  predicate IsQuery(s: State)
  {
    match s
    case QuerySelectType | QueryOneTagOrName | QueryOneSetName | QueryFewSetNum | QuerySetTags | QueryRetrieve => true
    case _ => false
  }

  /** The category a dispatcher routes a state to. */
  datatype Category = IdleCategory | AddingCategory | QueryCategory | Uncategorised

  function CategoryOf(s: State): (c: Category)
    ensures c == AddingCategory <==> IsAddingNewPlace(s)
    ensures c == QueryCategory <==> IsQuery(s)
    ensures c == IdleCategory <==> s == Idle
  {
    if s == Idle then IdleCategory
    else if IsAddingNewPlace(s) then AddingCategory
    else if IsQuery(s) then QueryCategory
    else Uncategorised
  }

  /** The adding predicate holds for exactly seven states, the query
      predicate for exactly six, and no state satisfies both. */
  lemma CategoryMembers(s: State)
    ensures IsAddingNewPlace(s) <==> s in {ReadyForNextAction, SetName, SetAddress, SetNotes, SetURL, SetImages, SetTags}
    ensures IsQuery(s) <==> s in {QuerySelectType, QueryOneTagOrName, QueryOneSetName, QuerySetTags, QueryFewSetNum, QueryRetrieve}
    ensures !(IsAddingNewPlace(s) && IsQuery(s))
    ensures s == Idle || s == Finished ==> !IsAddingNewPlace(s) && !IsQuery(s)
  {
  }
}

=== FILE: tag_buttons.dfy ===
/**
  The inline-keyboard button lists offered while adding and removing tags
  (`sendExistingTagsResponse` and `sendAddedTagsResponse` in
  services/addPlace.go). Button order follows Go map iteration, which is
  unspecified, so the contracts speak of the set of buttons.
*/
module TagButtons {
  import opened Wrappers
  import opened Items

  /** The completion token that ends both tag loops. */
  const Done := "/done"

  /** Buttons offered in SetTags: the chat's tag vocabulary minus the tags
      already on the staged item, then `/done` as the last button.
      `chatTags` is None when the chat target or the chat's tags could not
      be read, `tempTags` is None when the staged item's tags could not be
      read; in both cases no keyboard is sent. The staged tags are read
      only when the chat has some tags. */
  method AddTagButtons(chatTags: Option<set<string>>, tempTags: Option<set<string>>)
    returns (buttons: Option<seq<string>>)
    ensures chatTags.None? ==> buttons.None?
    ensures chatTags == Some({}) ==> buttons == Some([Done])
    ensures chatTags.Some? && chatTags.value != {} && tempTags.None? ==> buttons.None?
    ensures chatTags.Some? && tempTags.Some? ==>
      && buttons.Some?
      && |buttons.value| == |chatTags.value - tempTags.value| + 1
      && buttons.value[|buttons.value| - 1] == Done
      && IsEnumeration(buttons.value[..|buttons.value| - 1], chatTags.value - tempTags.value)
  {
    if chatTags.None? {
      return None;
    }
    if chatTags.value == {} {
      return Some([Done]);
    }
    if tempTags.None? {
      return None;
    }
    var offered := Enumerate(chatTags.value - tempTags.value);
    buttons := Some(offered + [Done]);
    assert buttons.value[..|buttons.value| - 1] == offered;
  }

  /** Buttons offered in RemoveTags: every tag on the staged item, then
      `/done`. A failed read is logged but not returned on, so it leaves a
      nil map and the list is `/done` alone. */
  method RemoveTagButtons(tempTags: Option<set<string>>) returns (buttons: seq<string>)
    ensures |buttons| == |Members(tempTags)| + 1
    ensures buttons[|buttons| - 1] == Done
    ensures IsEnumeration(buttons[..|buttons| - 1], Members(tempTags))
    ensures tempTags.None? ==> buttons == [Done]
  {
    if tempTags.None? || tempTags.value == {} {
      return [Done];
    }
    var listed := Enumerate(tempTags.value);
    buttons := listed + [Done];
    assert buttons[..|buttons| - 1] == listed;
  }
}

=== FILE: telegram.dfy ===
/**
  The parts of a Telegram update the bot reads, the getters of
  services/utils/telegram_utils.go, and the discrimination of an update
  into one of the three input channels the conversation handlers accept.
*/
module Telegram {
  import opened Wrappers
  import Decimal

  datatype PhotoSize = PhotoSize(fileId: string)

  /** A chat message: its chat, its sender, its id, its text (empty for a
      photo) and, for a photo, the sizes Telegram offers. */
  datatype Message = Message(
    chatId: int,
    fromId: int,
    messageId: int,
    text: string,
    photo: Option<seq<PhotoSize>>)

  /** A button press: the payload of the pressed button and the message
      that carried the keyboard. */
  datatype CallbackQuery = CallbackQuery(data: string, message: Message)

  /** An update carries a message, a button press, or neither. */
  datatype Update = Update(message: Option<Message>, callbackQuery: Option<CallbackQuery>)

  datatype GetError = InvalidMessage | NoPhoto | InvalidCallbackData

  /** What a Go call does: return a value or dereference nil and panic. */
  datatype Call<+T> = Returns(value: T) | NilDereference

  /** (chatID, userID, err) as the getters return them. */
  datatype ChatUser = ChatUser(chatId: int, userId: int, err: Option<GetError>)

  datatype ChatUserText = ChatUserText(chatId: string, userId: string, err: Option<GetError>)

  /** (message, messageID, err) as `GetMessage` returns them. */
  datatype MessageText = MessageText(text: string, messageId: int, err: Option<GetError>)

  /** `GetChatUserID`: the chat and sender of the message, or zeros and an
      error when the update has no message. */
  function GetChatUserID(u: Update): (r: ChatUser)
    ensures r.err.Some? <==> u.message.None?
    ensures r.err.Some? ==> r.chatId == 0 && r.userId == 0
    ensures r.err.None? ==> r.chatId == u.message.value.chatId && r.userId == u.message.value.fromId
  {
    match u.message
    case None => ChatUser(0, 0, Some(InvalidMessage))
    case Some(m) => ChatUser(m.chatId, m.fromId, None)
  }

  /** `GetChatUserIDString` as written: the guard is inverted, so a present
      message yields an error and an absent one is dereferenced. It never
      produces the identifiers. */
  function GetChatUserIDStringAsWritten(u: Update): (r: Call<ChatUserText>)
    ensures r.Returns? ==> r.value.err.Some? && r.value.chatId == "" && r.value.userId == ""
    ensures r == NilDereference <==> u.message.None?
  {
    if u.message.Some? then Returns(ChatUserText("", "", Some(InvalidMessage)))
    else NilDereference
  }

  /** A concrete update that shows the inverted guard: a group-chat message
      whose identifiers are refused. */
  lemma ChatUserIDStringAsWrittenCounterexample()
    ensures var u := Update(Some(Message(-100, 7, 1, "/additem", None)), None);
      && GetChatUserID(u).err.None?
      && GetChatUserIDStringAsWritten(u) == Returns(ChatUserText("", "", Some(InvalidMessage)))
  {
  }

  /** `GetChatUserIDString` with the guard the text evidently intends:
      the base-10 forms of `GetChatUserID`'s identifiers. */
  function GetChatUserIDString(u: Update): (r: ChatUserText)
    ensures r.err.Some? <==> u.message.None?
    ensures r.err.Some? ==> r.chatId == "" && r.userId == ""
    ensures r.err.None? ==>
      && Decimal.ParseInt(r.chatId) == Some(GetChatUserID(u).chatId)
      && Decimal.ParseInt(r.userId) == Some(GetChatUserID(u).userId)
  {
    match u.message
    case None => ChatUserText("", "", Some(InvalidMessage))
    case Some(m) =>
      Decimal.IntToStringRoundTrip(m.chatId);
      Decimal.IntToStringRoundTrip(m.fromId);
      ChatUserText(Decimal.IntToString(m.chatId), Decimal.IntToString(m.fromId), None)
  }

  /** The corrected function distinguishes chats: two messages from
      different chats give different chat strings. */
  lemma ChatUserIDStringSeparatesChats(u: Update, v: Update)
    requires u.message.Some? && v.message.Some?
    requires u.message.value.chatId != v.message.value.chatId
    ensures GetChatUserIDString(u).chatId != GetChatUserIDString(v).chatId
  {
    Decimal.IntToStringInjective(u.message.value.chatId, v.message.value.chatId);
  }

  /** `GetMessage`: the text and id of the message, or ("", 0) and an
      error when there is none. */
  function GetMessage(u: Update): (r: MessageText)
    ensures r.err.Some? <==> u.message.None?
    ensures r.err.Some? ==> r.text == "" && r.messageId == 0
    ensures r.err.None? ==> r.text == u.message.value.text && r.messageId == u.message.value.messageId
  {
    match u.message
    case None => MessageText("", 0, Some(InvalidMessage))
    case Some(m) => MessageText(m.text, m.messageId, None)
  }

  /** `GetCallbackQueryMessage` as written: the text of the message that
      carried the keyboard, not the pressed button's payload. */
  function GetCallbackQueryMessage(u: Update): (r: Result<string, GetError>)
    ensures r.Failure? <==> u.callbackQuery.None?
    ensures r.Success? ==> r.value == u.callbackQuery.value.message.text
  {
    match u.callbackQuery
    case None => Failure(InvalidCallbackData)
    case Some(cb) => Success(cb.message.text)
  }

  /** As written, which button was pressed cannot be told from the result. */
  lemma CallbackQueryMessageIgnoresPayload(m: Message, a: string, b: string)
    ensures GetCallbackQueryMessage(Update(None, Some(CallbackQuery(a, m))))
         == GetCallbackQueryMessage(Update(None, Some(CallbackQuery(b, m))))
  {
  }

  /** A concrete press of the button "cafe" under the prompt "Existing
      tags:" reads as the prompt. */
  lemma CallbackQueryMessageCounterexample()
    ensures var u := Update(None, Some(CallbackQuery("cafe", Message(5, 7, 2, "Existing tags:", None))));
      GetCallbackQueryMessage(u) == Success("Existing tags:")
  {
  }

  /** The button payload, which is what the handlers compare against
      `/done`, `yes`, `no` and the tag names. */
  function GetCallbackData(u: Update): (r: Result<string, GetError>)
    ensures r.Failure? <==> u.callbackQuery.None?
    ensures r.Success? ==> r.value == u.callbackQuery.value.data
  {
    match u.callbackQuery
    case None => Failure(InvalidCallbackData)
    case Some(cb) => Success(cb.data)
  }

  /** `GetPhotoIDs`: the file id of every size of the photo, in order;
      an error for an update without a message or a message without a
      photo. */
  method GetPhotoIDs(u: Update) returns (ids: seq<string>, err: Option<GetError>)
    ensures u.message.None? ==> ids == [] && err == Some(InvalidMessage)
    ensures u.message.Some? && u.message.value.photo.None? ==> ids == [] && err == Some(NoPhoto)
    ensures u.message.Some? && u.message.value.photo.Some? ==>
      && err.None?
      && |ids| == |u.message.value.photo.value|
      && forall i :: 0 <= i < |ids| ==> ids[i] == u.message.value.photo.value[i].fileId
  {
    if u.message.None? {
      return [], Some(InvalidMessage);
    }
    if u.message.value.photo.None? {
      return [], Some(NoPhoto);
    }
    var photos := u.message.value.photo.value;
    ids := [];
    var k := 0;
    while k < |photos|
      invariant 0 <= k <= |photos|
      invariant |ids| == k
      invariant forall i :: 0 <= i < k ==> ids[i] == photos[i].fileId
    {
      ids := ids + [photos[k].fileId];
      k := k + 1;
    }
    err := None;
  }

  /** The three input channels the conversation handlers accept. */
  datatype Event =
    | TextMsg(text: string, messageId: int)
    | PhotoMsg(imageRef: string, messageId: int)
    | Button(payload: string)
  {
    /** The handlers test `update.Message != nil` to tell a message from a
        button press. */
    predicate IsMessage()
    {
      !Button?
    }

    /** The text `GetMessage` yields for the event: a photo message has
        empty text and a button press has none. */
    function MessageTextOf(): string
    {
      match this
      case TextMsg(t, _) => t
      case _ => ""
    }

    /** The message id `GetMessage` yields: 0 for a button press. */
    function MessageIdOf(): int
    {
      match this
      case TextMsg(_, id) => id
      case PhotoMsg(_, id) => id
      case Button(_) => 0
    }
  }

  /** Reads an update as an event. A message wins over a button press,
      as in the handlers' `update.Message != nil` tests; a photo is stored
      by the file id of its last (largest) size. */
  function Classify(u: Update): (e: Option<Event>)
    ensures e.None? <==> u.message.None? && u.callbackQuery.None?
    ensures u.message.Some? ==>
      && e.Some? && e.value.IsMessage()
      && e.value.MessageTextOf() == (if e.value.PhotoMsg? then "" else GetMessage(u).text)
    ensures e.Some? && e.value.PhotoMsg? ==>
      && u.message.Some? && u.message.value.photo.Some?
      && var photos := u.message.value.photo.value;
        |photos| > 0 && e.value.imageRef == photos[|photos| - 1].fileId
    ensures e.Some? && e.value.Button? <==> u.message.None? && u.callbackQuery.Some?
    ensures e.Some? && e.value.Button? ==> Success(e.value.payload) == GetCallbackData(u)
  {
    match u.message
    case Some(m) =>
      if m.photo.Some? && |m.photo.value| > 0 then
        Some(PhotoMsg(m.photo.value[|m.photo.value| - 1].fileId, m.messageId))
      else
        Some(TextMsg(m.text, m.messageId))
    case None =>
      match u.callbackQuery
      case Some(cb) => Some(Button(cb.data))
      case None => None
  }

  /** Reads an update as the handlers would with the getter as written: a
      message is read as by `Classify`, and a lone button press reads as
      the text of the message that carried the keyboard. */
  function ClassifyAsWritten(u: Update): (e: Option<Event>)
    ensures e.None? <==> u.message.None? && u.callbackQuery.None?
    ensures u.message.Some? ==> e == Classify(u)
    ensures e.Some? && e.value.Button? <==> u.message.None? && u.callbackQuery.Some?
    ensures e.Some? && e.value.Button? ==> Success(e.value.payload) == GetCallbackQueryMessage(u)
  {
    if u.message.Some? then Classify(u)
    else
      match u.callbackQuery
      case Some(cb) => Some(Button(cb.message.text))
      case None => None
  }
}

=== FILE: workflow.dfy ===
/**
  The older top-level dispatcher `HandleUserInput`
  (services/workflow.go): the `/start` override, the Idle entry command
  `/addPlace`, and the older add-place field machine. Unlike
  `addItemHandler`, it advances to ReadyForNextAction whether or not the
  field write succeeded, and it reads `update.Message.Text` without a nil
  check in two places, which panics on an update that carries only a
  button press.
*/
module Workflow {
  import opened Wrappers
  import opened States
  import opened Items
  import opened Telegram
  import opened AddItem

  /** A turn either completes or panics on a nil message. */
  datatype Outcome = Handled(world: World) | Crashed

  /** The tokens of the older ReadyForNextAction menu that lead somewhere. */
  const LegacyMoves: set<string> := {"/addAddress", "/addURL", "/addImage", "/addTag", "/submit", "/cancel"}

  /** The older staging helpers (`initPlace`, `setTempPlace*`,
      `addTempPlaceImage`) need a text message, or a photo for images. */
  predicate TextWriteOk(u: Update, f: Faults)
  {
    Classify(u).Some? && Classify(u).value.TextMsg? && !f.tempWriteFails
  }

  predicate PhotoWriteOk(u: Update, f: Faults)
  {
    Classify(u).Some? && Classify(u).value.PhotoMsg? && !f.tempWriteFails
  }

  /** The older field machine for one state of `IsAddingNewPlace`. */
  function LegacyAddStep(w: World, u: Update, f: Faults): World
    requires IsAddingNewPlace(w.state)
  {
    var text := GetMessage(u).text;
    match w.state
    case SetName =>
      var staged := if TextWriteOk(u, f) then w.(temp := NewItem(text)) else w;
      SetState(staged, ReadyForNextAction, f)
    case ReadyForNextAction =>
      if text == "/addAddress" then SetState(w, SetAddress, f)
      else if text == "/addURL" then SetState(w, SetURL, f)
      else if text == "/addImage" then SetState(w, SetImages, f)
      else if text == "/addTag" then SetState(w, SetTags, f)
      else if text == "/submit" then
        // `addPlaceFromTemp` stores under the chat the message came from.
        var chat := GetChatUserID(u).chatId;
        var committed := if f.commitFails then w else w.(items := Upsert(w.items, chat, w.temp));
        SetState(committed, Idle, f)
      else if text == "/cancel" then SetState(w, Idle, f)
      else w  // "/preview" and anything else
    case SetAddress =>
      var staged := if TextWriteOk(u, f) then w.(temp := w.temp.(address := text)) else w;
      SetState(staged, ReadyForNextAction, f)
    case SetURL =>
      var staged := if TextWriteOk(u, f) then w.(temp := w.temp.(url := text)) else w;
      SetState(staged, ReadyForNextAction, f)
    case SetImages =>
      var staged :=
        if PhotoWriteOk(u, f) then w.(temp := w.temp.(images := With(w.temp.images, Classify(u).value.imageRef)))
        else w;
      SetState(staged, ReadyForNextAction, f)
    case SetTags =>
      // The tag text goes through `setTempPlaceURL`.
      var staged := if TextWriteOk(u, f) then w.(temp := w.temp.(url := text)) else w;
      SetState(staged, ReadyForNextAction, f)
    case SetNotes => w  // no case for SetNotes
  }

  /** One call of `HandleUserInput`. The `/start` write is a call of its
      own, so whether it fails is a separate input: `f` governs the
      dispatch that follows. */
  function HandleUserInput(w: World, u: Update, startWriteFails: bool, f: Faults): (r: Outcome)
    // Only an update without a message can panic.
    ensures r.Crashed? ==> u.message.None?
    // Nothing outside the dispatcher's reach changes: the chat target and
    // the reply target are never written.
    ensures r.Handled? ==> r.world.chatTarget == w.chatTarget && r.world.messageTarget == w.messageTarget
    // A failing dispatch write leaves the state where the `/start` write
    // left it: Idle if that write succeeded, unchanged otherwise.
    ensures r.Handled? && f.stateWriteFails ==>
      r.world.state == (if GetMessage(u).text == "/start" && !startWriteFails then Idle else w.state)
    // A `/start` whose write succeeds always ends the turn in Idle.
    ensures u.message.Some? && u.message.value.text == "/start" && !startWriteFails ==>
      r.Handled? && r.world.state == Idle
    // Stored items change only by `/submit` in ReadyForNextAction, and
    // then under the message's chat.
    ensures r.Handled? && r.world.items != w.items ==>
      && w.state == ReadyForNextAction
      && GetMessage(u).text == "/submit"
      && r.world.items == Upsert(w.items, u.message.value.chatId, w.temp)
  {
    var message := GetMessage(u);
    var w1 := if message.err.None? && message.text == "/start" && !startWriteFails then w.(state := Idle) else w;
    if f.stateReadFails then Handled(w1)
    else if w1.state == Idle then
      if u.message.None? then Crashed
      else if u.message.value.text == "/addPlace" then Handled(SetState(w1, SetName, f))
      else Handled(w1)
    else if IsAddingNewPlace(w1.state) then Handled(LegacyAddStep(w1, u, f))
    else if u.message.None? then Crashed
    else Handled(w1)
  }

  /** A text message. */
  function TextUpdate(chat: int, user: int, id: int, text: string): Update
  {
    Update(Some(Message(chat, user, id, text, None)), None)
  }

  /** A `/start` whose write succeeds takes any conversation to Idle
      before dispatch, and the dispatch then changes nothing else, whatever
      fails during it. */
  lemma StartResets(w: World, chat: int, user: int, id: int, f: Faults)
    ensures HandleUserInput(w, TextUpdate(chat, user, id, "/start"), false, f) == Handled(w.(state := Idle))
  {
  }

  /** If the `/start` write fails, the text is dispatched to the stored
      state like any other input: in SetAddress it becomes the address,
      and the state moves on to ReadyForNextAction if the dispatch's own
      write succeeds. */
  lemma StartFallsThroughOnWriteFailure(w: World, chat: int, user: int, id: int, f: Faults)
    requires w.state == SetAddress
    requires !f.stateReadFails && !f.tempWriteFails
    ensures HandleUserInput(w, TextUpdate(chat, user, id, "/start"), true, f)
         == Handled(w.(state := if f.stateWriteFails then SetAddress else ReadyForNextAction,
                       temp := w.temp.(address := "/start")))
  {
  }

  /** Idle: `/addPlace` starts the flow in SetName; any other text leaves
      the conversation Idle; a button press panics. */
  lemma IdleEntry(w: World, u: Update, f: Faults, startWriteFails: bool)
    requires w.state == Idle && !f.stateReadFails
    ensures u.message.None? ==> HandleUserInput(w, u, startWriteFails, f) == Crashed
    ensures u.message.Some? && u.message.value.text == "/addPlace" && !f.stateWriteFails ==>
      HandleUserInput(w, u, startWriteFails, f) == Handled(w.(state := SetName))
    ensures u.message.Some? && u.message.value.text != "/addPlace" ==>
      HandleUserInput(w, u, startWriteFails, f) == Handled(w)
  {
  }

  /** ReadyForNextAction: the older menu tokens lead to their states. */
  lemma LegacyReadyMenu(w: World, chat: int, user: int, id: int, startWriteFails: bool)
    requires w.state == ReadyForNextAction
    ensures HandleUserInput(w, TextUpdate(chat, user, id, "/addAddress"), startWriteFails, NoFaults) == Handled(w.(state := SetAddress))
    ensures HandleUserInput(w, TextUpdate(chat, user, id, "/addURL"), startWriteFails, NoFaults) == Handled(w.(state := SetURL))
    ensures HandleUserInput(w, TextUpdate(chat, user, id, "/addImage"), startWriteFails, NoFaults) == Handled(w.(state := SetImages))
    ensures HandleUserInput(w, TextUpdate(chat, user, id, "/addTag"), startWriteFails, NoFaults) == Handled(w.(state := SetTags))
  {
  }

  /** ReadyForNextAction: `/cancel` goes to Idle; `/submit` stores the
      staged item under the message's chat and goes to Idle. */
  lemma LegacyReadyLeaves(w: World, chat: int, user: int, id: int, startWriteFails: bool)
    requires w.state == ReadyForNextAction
    ensures HandleUserInput(w, TextUpdate(chat, user, id, "/cancel"), startWriteFails, NoFaults) == Handled(w.(state := Idle))
    ensures HandleUserInput(w, TextUpdate(chat, user, id, "/submit"), startWriteFails, NoFaults)
         == Handled(w.(state := Idle, items := Upsert(w.items, chat, w.temp)))
  {
  }

  /** ReadyForNextAction: `/submit` goes to Idle even when storing the
      item failed. */
  lemma LegacySubmitIgnoresCommitFailure(w: World, chat: int, user: int, id: int, f: Faults, startWriteFails: bool)
    requires w.state == ReadyForNextAction
    requires f.commitFails && !f.stateWriteFails && !f.stateReadFails
    ensures HandleUserInput(w, TextUpdate(chat, user, id, "/submit"), startWriteFails, f) == Handled(w.(state := Idle))
  {
  }

  /** ReadyForNextAction: `/preview`, tokens of the newer menu such as
      `/setNotes`, and anything else change nothing; there is no default
      branch. */
  lemma LegacyReadyIgnores(w: World, u: Update, f: Faults, startWriteFails: bool)
    requires w.state == ReadyForNextAction && !f.stateReadFails
    requires GetMessage(u).text !in LegacyMoves && GetMessage(u).text != "/start"
    ensures HandleUserInput(w, u, startWriteFails, f) == Handled(w)
  {
  }

  /** SetName, SetAddress, SetURL and SetImages move on to
      ReadyForNextAction even when the field write fails, leaving the
      staged item as it was. */
  lemma LegacyAdvancesOnFailure(w: World, u: Update, f: Faults, startWriteFails: bool)
    requires w.state in {SetName, SetAddress, SetURL, SetImages}
    requires f.tempWriteFails && !f.stateWriteFails && !f.stateReadFails
    requires GetMessage(u).text != "/start"
    ensures HandleUserInput(w, u, startWriteFails, f) == Handled(w.(state := ReadyForNextAction))
  {
  }

  /** SetTags writes the text into the URL field and returns to
      ReadyForNextAction; the tags are untouched. */
  lemma LegacyTagGoesToURL(w: World, chat: int, user: int, id: int, text: string, startWriteFails: bool)
    requires w.state == SetTags && text != "/start"
    ensures HandleUserInput(w, TextUpdate(chat, user, id, text), startWriteFails, NoFaults)
         == Handled(w.(state := ReadyForNextAction, temp := w.temp.(url := text)))
  {
  }

  /** With the state names and `IsAddingNewPlace` of constants.go,
      SetNotes counts as an add state but the field machine has no case
      for it: nothing changes, and a button press does not panic. */
  lemma LegacyNotesUnhandled(w: World, u: Update, f: Faults, startWriteFails: bool)
    requires w.state == SetNotes && !f.stateReadFails && GetMessage(u).text != "/start"
    ensures HandleUserInput(w, u, startWriteFails, f) == Handled(w)
  {
  }

  /** States outside Idle and the add-place flow are left alone by a
      message and panic on a button press. */
  lemma OtherStatesUntouched(w: World, u: Update, f: Faults, startWriteFails: bool)
    requires w.state != Idle && !IsAddingNewPlace(w.state) && !f.stateReadFails
    requires GetMessage(u).text != "/start"
    ensures u.message.Some? ==> HandleUserInput(w, u, startWriteFails, f) == Handled(w)
    ensures u.message.None? ==> HandleUserInput(w, u, startWriteFails, f) == Crashed
  {
  }
}

=== FILE: wrappers.dfy ===
/** Failure-carrying values shared by the rest of the model. */
module Wrappers {

  /** A value that may be absent: a nil reference or nil map in Go. */
  datatype Option<+T> = None | Some(value: T)

  /** The (value, error) pair of a Go function, as one value. */
  datatype Result<+R, +E> = Success(value: R) | Failure(error: E)
}
